=== FILE: README.md ===
# Twilio Verify authentication-tree nodes, modelled in Dafny

This project models the four Twilio Verify nodes of the ForgeRock authentication tree:

- the **identifier node** looks up the current user in the identity store and publishes the
  first value of a configured attribute (a phone number or an e-mail address) in shared state;
- the **sender node** asks Twilio Verify to send a one-time code to that identifier, asking the user
  for the identifier first when it is missing and the node is configured to, and records the
  Verify service SID (key `serviceSID`) and the identifier in shared state;
- the **collector decision node** asks the user for the code, with optional resend and cancel
  buttons, and has Twilio check the code against the service SID and the identifier in shared state;
- the **lookup node** asks Twilio's carrier lookup whether the phone number is a mobile line.

Each node's `process` is a decision step. It reads the shared state (a string-keyed map), its
configuration and the callbacks the user sent back. It then either sends callbacks (a prompt) or
goes to one named outcome, sometimes replacing the shared state. The collector and sender use the
outcomes `true`/`false`/`resend`/`cancel`/`error`; the lookup and identifier nodes use
`True`/`False`/`Error`.

The calls to Twilio and to the identity store are the only parts that cannot be modelled. Each
becomes an input: the node's `Decide` function takes the service's reply as a parameter and
returns, with the action, the request it made (`None` when it made none). "No call is made" is
then `request == None`, and the arguments of a call are stated exactly.

Modules:

- `Tree` (tree.dfy): the host's pieces. These are the shared state (`map<string, string>`; a null
  value reads as a missing key), `Get`/`Put`, the callbacks a node sends (`Callback`), and the
  callbacks returned with the user's values (`Response`). `FindFirst` models `getCallback`. It also
  holds the `Action`, the declared `Outcome`, the `Step` result (action, shared state afterwards,
  request made), and the `TreeContext` class, whose shared state a node may change in place.
- `Sender`, `Collector`, `Lookup`, `Identifier`: one module per node. Each has a pure `Decide`,
  whose `Step.state` is the tree context's shared state after the call. All four nodes write the
  `Exception` entry into it in place on their error paths. For the lookup and identifier nodes that
  is their only in-place write, and `Step.state` carries it. The sender and collector are also
  modelled as they run: a `Process` method on `TreeContext` makes their in-place puts and is proved
  equal to `Decide`. The collector's prompt (`CollectCode`) and both nodes' outcome lists
  (`GetOutcomes`) are methods that add one element at a time, as the code does.
- `Flow`: how the nodes hand a verification on through shared state, and one whole run.

## Model

| member | source | states |
|---|---|---|
| `Tree.Get` | src/main/java/com/twilio/verify/VerifyAuthSenderNode.java:131 | Reading a key gives its string exactly when the key is present, and null otherwise |
| `Tree.Put` | src/main/java/com/twilio/verify/VerifyAuthSenderNode.java:150 | After a put, the key reads as the value put (null included) and every other key reads as before |
| `Tree.FindFirst` | src/main/java/com/twilio/verify/VerifyAuthCollectorDecisionNode.java:122-129 | `getCallback` finds the first returned callback of the class asked for, or reports that there is none |
| `Tree.NameOf` | src/main/java/com/twilio/verify/VerifyAuthSenderNode.java:135-136 | `getCallback(NameCallback.class).map(getName)`: present exactly when some name callback came back, and then it is the name of the first one |
| `Tree.PasswordOf` | src/main/java/com/twilio/verify/VerifyAuthCollectorDecisionNode.java:121-122 | `getCallback(PasswordCallback.class).map(getPassword)`: present exactly when some password callback came back, and then it is the password of the first one |
| `Tree.SelectionOf` | src/main/java/com/twilio/verify/VerifyAuthCollectorDecisionNode.java:129 | `getCallback(ConfirmationCallback.class)`: present exactly when some confirmation callback came back, and then it is the selected index of the first one |
| `Tree.Ids` | src/main/java/com/twilio/verify/VerifyAuthSenderNode.java:188-195 | The ids of a declared outcome list, position by position |
| `Sender.ChannelNames` | src/main/java/com/twilio/verify/VerifyAuthSenderNode.java:133-134 | Of the names `CurrentChannel` gives the four channels (the `Module` enum at lines 159-174), no two are the same; `IsPhone` (the test at lines 133-134) holds exactly when the channel is not EMAIL |
| `Sender.Digits` | src/main/java/com/twilio/verify/VerifyAuthSenderNode.java:137 | Removing the non-digits leaves only digits, never lengthens the text, and leaves an all-digit text unchanged |
| `Sender.DigitsOfChar` | src/main/java/com/twilio/verify/VerifyAuthSenderNode.java:137 | A single character is kept when it is a digit and dropped otherwise |
| `Sender.DigitsCount` | src/main/java/com/twilio/verify/VerifyAuthSenderNode.java:137 | Removing the non-digits keeps every digit of the text, as many times as it occurs, and nothing else |
| `Sender.DigitsAppend` | src/main/java/com/twilio/verify/VerifyAuthSenderNode.java:137 | Removing the non-digits works piece by piece: that of `s + t` is that of `s` followed by that of `t` |
| `Sender.Normalise` | src/main/java/com/twilio/verify/VerifyAuthSenderNode.java:137 | A normalised phone identifier starts with `+`, every later character is a digit, and they are the digits of the entry |
| `Sender.NormaliseIdempotent` | src/main/java/com/twilio/verify/VerifyAuthSenderNode.java:137 | Normalising a normalised number changes nothing |
| `Sender.NormaliseExample` | src/main/java/com/twilio/verify/VerifyAuthSenderNode.java:137 | `(555) 123-4567`, given as its halves `(555) ` and `123-4567`, becomes `+5551234567` |
| `Sender.Resolve` | src/main/java/com/twilio/verify/VerifyAuthSenderNode.java:131-145 | An identifier in shared state, or any value when `requestIdentifier` is off, is used as read. Otherwise the node asks exactly when no name callback came back; a null phone entry is the `replaceAll` failure; an entry is used as `Normalise(entry)` on a phone channel and unchanged on e-mail |
| `Sender.IdentifierPrompt` | src/main/java/com/twilio/verify/VerifyAuthSenderNode.java:140-144 | The identifier prompt is an info text and one name field whose default name is the identifier key; the texts are `callback.phoneNumber…` for phone channels and `callback.email…` for e-mail. (With an empty identifier key the name field cannot be built; `Sender.Decide` then goes to `error`) |
| `Sender.Recorded` | src/main/java/com/twilio/verify/VerifyAuthSenderNode.java:150 | After the chained `put`, the identifier key holds the identifier, `serviceSID` holds the configured SID (unless the identifier key is `serviceSID` itself), and every other key is as before |
| `Sender.Decide` | src/main/java/com/twilio/verify/VerifyAuthSenderNode.java:127-157 | The node prompts exactly when the identifier is missing, `requestIdentifier` is on, no name callback came back and the identifier key is not empty (an empty default name makes the `NameCallback` constructor throw); the prompt is the identifier prompt, with no request and no state change. It only goes to `true` or `error`, and goes to `true` exactly when the verification was created. A request always names the configured service SID and channel |
| `Sender.Process` | src/main/java/com/twilio/verify/VerifyAuthSenderNode.java:127-157 | Running `process` on a tree context gives `Decide`'s action and request, and leaves the context's shared state as `Decide` says (chained `put` on success, `Exception` on failure) |
| `Sender.GetOutcomes` | src/main/java/com/twilio/verify/VerifyAuthSenderNode.java:184-196 | The declared outcomes are exactly `true`, `error`, in that order, displayed as `True` and `Error` |
| `Sender.KnownIdentifierDispatches` | src/main/java/com/twilio/verify/VerifyAuthSenderNode.java:131-150 | An identifier present in shared state is used without a prompt. The request is (service SID, identifier, channel name), and a created verification gives `true` |
| `Sender.AsksForMissingIdentifier` | src/main/java/com/twilio/verify/VerifyAuthSenderNode.java:132-145 | A missing identifier, with `requestIdentifier` on and no name callback returned, gives the identifier prompt, with no request and the state unchanged. With an empty identifier key the prompt's constructor throws instead: `error`, with `java.lang.IllegalArgumentException` recorded and no request |
| `Sender.EnteredIdentifierUsed` | src/main/java/com/twilio/verify/VerifyAuthSenderNode.java:133-137 | An entered identifier is sent as `+` and its digits on a phone channel, and unchanged on e-mail |
| `Sender.NullEntry` | src/main/java/com/twilio/verify/VerifyAuthSenderNode.java:135-156 | A null entry on a phone channel makes `replaceAll` throw. The node goes to `error` with the exception recorded and no request. On e-mail the null is sent on |
| `Sender.MissingIdentifierSentAsNull` | src/main/java/com/twilio/verify/VerifyAuthSenderNode.java:131-148 | With `requestIdentifier` off, a missing identifier is passed to Twilio as null |
| `Sender.DispatchRecordsState` | src/main/java/com/twilio/verify/VerifyAuthSenderNode.java:148-150 | On success, the replaced state is the context's own state. It holds the identifier used under the identifier key and the configured SID under `serviceSID`, and every other key as before |
| `Sender.FailureRecordsException` | src/main/java/com/twilio/verify/VerifyAuthSenderNode.java:151-156 | A failed create goes to `error` and adds only an `Exception` entry |
| `Sender.NoRequestNoReply` | src/main/java/com/twilio/verify/VerifyAuthSenderNode.java:132-148 | When no request is made, Twilio's reply has no effect on the result |
| `Collector.CodeOf` | src/main/java/com/twilio/verify/VerifyAuthCollectorDecisionNode.java:119-127 | The code is the value typed into the first returned password callback when `hideCode` is on, and into the first returned name callback otherwise (none when that value is null); with no callback of that kind there is no code |
| `Collector.ButtonChoice` | src/main/java/com/twilio/verify/VerifyAuthCollectorDecisionNode.java:129-153 | A button routes only to `resend` or `cancel`, only when a confirmation callback came back, and only to a button that is shown |
| `Collector.ChoiceOptions` | src/main/java/com/twilio/verify/VerifyAuthCollectorDecisionNode.java:192-207 | The choice labels are "Next", then the resend text when that button is shown, then the cancel text when that button is shown |
| `Collector.Prompt` | src/main/java/com/twilio/verify/VerifyAuthCollectorDecisionNode.java:181-210 | The prompt is the `callback.text` info text, then a masked or plain `callback.code` field per `hideCode`. A choice field with "Next", the shown buttons and default index 1 follows exactly when a button is shown (it can be built only when no shown button has an empty text; see `Collector.Decide`) |
| `Collector.CollectCode` | src/main/java/com/twilio/verify/VerifyAuthCollectorDecisionNode.java:181-210 | Building the callback list one add at a time gives that prompt, or fails exactly when a shown button's text is empty (`PromptRejected`), where the choice field's constructor throws |
| `Collector.CheckCode` | src/main/java/com/twilio/verify/VerifyAuthCollectorDecisionNode.java:168-176 | Exactly the status `approved` gives `true`, and exactly any other status, null included, gives `false`. A failed check gives `error` and adds the `Exception` entry |
| `Collector.Decide` | src/main/java/com/twilio/verify/VerifyAuthCollectorDecisionNode.java:116-165 | A prompt is always `collectCode`'s prompt, with no request and no state change. The node never replaces the state. It asks Twilio exactly when no button routes and a non-empty code was entered. Otherwise, without a button press, it prompts exactly when the prompt can be built, and else goes to `error` with `java.lang.IllegalArgumentException` recorded |
| `Collector.Process` | src/main/java/com/twilio/verify/VerifyAuthCollectorDecisionNode.java:116-165 | Running `process` on a tree context gives `Decide`'s action and request; only the error handler changes the context's shared state, in place |
| `Collector.DeclaredIds` | src/main/java/com/twilio/verify/VerifyAuthCollectorDecisionNode.java:224-252 | The declared ids begin `true`, `false` and end with `error`. They include `resend` exactly when the resend button is on, and `cancel` exactly when the cancel button is on; `resend` comes third and `cancel` just before `error`, and there are no other ids |
| `Collector.GetOutcomes` | src/main/java/com/twilio/verify/VerifyAuthCollectorDecisionNode.java:224-252 | Null node attributes give `true, false, error`. A missing button flag makes `required()` throw, resend first. Otherwise the list is `true, false, [resend], [cancel], error`. Each declared outcome is displayed under its id capitalised: `True`, `False`, `Resend`, `Cancel`, `Error` |
| `Collector.OutcomeDeclared` | src/main/java/com/twilio/verify/VerifyAuthCollectorDecisionNode.java:132-175 | Every outcome the node goes to is among those it declares for its own button settings |
| `Collector.BothButtonsRoute` | src/main/java/com/twilio/verify/VerifyAuthCollectorDecisionNode.java:132-141 | With both buttons on, index 1 gives `resend` and index 2 gives `cancel`, whatever code was entered. No request is made and the state is unchanged; any other index falls through to the code |
| `Collector.OneButtonRoutes` | src/main/java/com/twilio/verify/VerifyAuthCollectorDecisionNode.java:143-153 | With only one button, index 1 gives that button's outcome; any other index falls through to the code |
| `Collector.NoButtonsNoRouting` | src/main/java/com/twilio/verify/VerifyAuthCollectorDecisionNode.java:132-153 | With no button shown, no selection routes |
| `Collector.EmptyCodeReprompts` | src/main/java/com/twilio/verify/VerifyAuthCollectorDecisionNode.java:155-158 | A missing, null or empty code brings back the prompt with no check and no state change, or goes to `error` with `java.lang.IllegalArgumentException` recorded when a shown button's text is empty; a code of spaces is checked |
| `Collector.CodeChecked` | src/main/java/com/twilio/verify/VerifyAuthCollectorDecisionNode.java:155-176 | A non-empty code is checked with (state `serviceSID`, code, state at the identifier key). `approved` gives `true`, other statuses `false`, a failure `error` with the exception recorded |
| `Collector.CodeFieldFollowsHideCode` | src/main/java/com/twilio/verify/VerifyAuthCollectorDecisionNode.java:119-128 | With `hideCode` only the password field is read, otherwise only the name field: two sets of returned callbacks that agree on the selection and on the field read give the same result, whatever the other field holds |
| `Collector.OtherFieldIgnored` | src/main/java/com/twilio/verify/VerifyAuthCollectorDecisionNode.java:119-128 | A code typed only into the field that is not read brings the prompt back |
| `Collector.PromptChoices` | src/main/java/com/twilio/verify/VerifyAuthCollectorDecisionNode.java:192-207 | The choice field is "Next", then the resend text if shown, then the cancel text if shown, with default index 1 |
| `Collector.PromptRoutesChoice` | src/main/java/com/twilio/verify/VerifyAuthCollectorDecisionNode.java:132-207 | Choosing index i of the prompt's choice field gives `resend` exactly at the resend button's index, and `cancel` exactly at the cancel button's. "Next" (index 0) goes to the code |
| `Collector.NoRequestNoReply` | src/main/java/com/twilio/verify/VerifyAuthCollectorDecisionNode.java:155-158 | When no check is made, Twilio's reply has no effect on the result |
| `Lookup.Classify` | src/main/java/com/twilio/verify/VerifyAuthLookupNode.java:95-114 | A looked-up number gives `True` exactly for line type `mobile`, and `False` exactly for another non-null type. It gives `Error` exactly for a null type (`type.equals` throws) or a failed lookup, with the exception recorded |
| `Lookup.Decide` | src/main/java/com/twilio/verify/VerifyAuthLookupNode.java:84-116 | The node never replaces the state and only goes to `True`, `False` or `Error`. It looks up exactly when the number is not `IsMissing` (neither null nor empty), and then looks up that number |
| `Lookup.DecideAsWritten` | src/main/java/com/twilio/verify/VerifyAuthLookupNode.java:90 | As written, the node skips the lookup exactly when `IsMissingAsWritten` holds: for a null number, or for an empty one that is the very object of the literal `""` |
| `Lookup.EmptyNumberReachesLookup` | src/main/java/com/twilio/verify/VerifyAuthLookupNode.java:90-98 | As written, an empty number from shared state is sent to Twilio, and a failed lookup gives `Error`. As intended it gives `False` with no lookup |
| `Lookup.AsWrittenAgreesOnNonEmpty` | src/main/java/com/twilio/verify/VerifyAuthLookupNode.java:90 | For every number other than the empty string, the as-written and the intended nodes agree |
| `Lookup.MissingNumberIsFalse` | src/main/java/com/twilio/verify/VerifyAuthLookupNode.java:89-93 | A missing or empty number gives `False` with no lookup and no state change |
| `Lookup.LineTypeClassified` | src/main/java/com/twilio/verify/VerifyAuthLookupNode.java:100-114 | For a present number: `mobile` gives `True` and another type `False`, both with no state change. A null type or a failed lookup gives `Error` and records the exception |
| `Lookup.MobileIsCaseSensitive` | src/main/java/com/twilio/verify/VerifyAuthLookupNode.java:101 | The line type `Mobile` is not `mobile`: it gives `False` |
| `Lookup.Outcomes` | src/main/java/com/twilio/verify/VerifyAuthLookupNode.java:129-142 | The declared outcomes are exactly `True`, `False`, `Error`, each displayed under its own id |
| `Lookup.OutcomeDeclared` | src/main/java/com/twilio/verify/VerifyAuthLookupNode.java:84-142 | Every outcome the node goes to is declared |
| `Identifier.Decide` | src/main/java/com/twilio/verify/VerifyAuthIdentifierNode.java:81-109 | The identity is looked up with the username and realm from shared state and the configured attribute. The node replaces the state exactly when it goes to `True`, and goes to `Error` exactly when the lookup fails. The context's own state changes only by the `Exception` entry |
| `Identifier.NoValuesIsFalse` | src/main/java/com/twilio/verify/VerifyAuthIdentifierNode.java:91-97 | A null or empty attribute gives `False`; the shared state is neither replaced nor changed |
| `Identifier.FirstValueRecorded` | src/main/java/com/twilio/verify/VerifyAuthIdentifierNode.java:91-100 | A non-empty attribute gives `True` and a copy of the state whose identifier key holds the first value. Every other key is as before and the original state is untouched |
| `Identifier.FirstValueDecides` | src/main/java/com/twilio/verify/VerifyAuthIdentifierNode.java:92 | Two value lists with the same first value give the same result |
| `Identifier.FailureRecordsException` | src/main/java/com/twilio/verify/VerifyAuthIdentifierNode.java:101-107 | A failed lookup gives `Error` and adds the `Exception` entry |
| `Identifier.Outcomes` | src/main/java/com/twilio/verify/VerifyAuthIdentifierNode.java:121-134 | The declared outcomes are exactly `True`, `False`, `Error`, each displayed under its own id |
| `Identifier.OutcomeDeclared` | src/main/java/com/twilio/verify/VerifyAuthIdentifierNode.java:81-134 | Every outcome the node goes to is declared |
| `Flow.IdentifierFeedsSender` | src/main/java/com/twilio/verify/VerifyAuthIdentifierNode.java:99-100 | With the same identifier key, the sender dispatches to the value the identifier node found, without a prompt |
| `Flow.IdentifierFeedsLookup` | src/main/java/com/twilio/verify/VerifyAuthIdentifierNode.java:99-100 | With the same identifier key, the lookup node looks up the value the identifier node found |
| `Flow.SenderFeedsCollector` | src/main/java/com/twilio/verify/VerifyAuthCollectorDecisionNode.java:156-157 | After a successful dispatch, with the same identifier key (other than `serviceSID`), an entered code is checked against the SID the sender recorded and the identifier it dispatched to |
| `Flow.EndToEnd` | src/main/java/com/twilio/verify/VerifyAuthSenderNode.java:148-150 | One whole run: directory value `+15551234567`, then an SMS dispatch to it that records `serviceSID`, then code `123456` approved gives `true` |

## Findings

| source | as written | input that shows it | evidently intended | confidence | as-written member | corrected member |
|---|---|---|---|---|---|---|
| src/main/java/com/twilio/verify/VerifyAuthLookupNode.java:90 | `phoneNumber == ""` compares references, so an empty string read from shared state (a different object from the interned literal) is not treated as missing | shared state `{"userIdentifier": ""}` where the empty string was built at run time, e.g. an empty attribute value the identifier node stored earlier in the same run: the node calls the carrier lookup with `""`, and if that throws it goes to `Error` | an empty number counts as missing: `False`, no lookup | medium; not executed | `Lookup.DecideAsWritten`, `Lookup.EmptyNumberReachesLookup` | `Lookup.Decide` |

## Left out

- Twilio client set-up (`Twilio.init` with the account SID and auth token in the sender and lookup constructors) is a global static client; the account SID stays in `Sender.Config` but the auth token is not modelled.
- The Twilio REST calls (`Verification.creator`, `VerificationCheck.creator`, `PhoneNumber.fetcher`) are network calls. Their results are inputs: a created/failed reply, a status or failure, a carrier line type or failure.
- The identity-store call (`CoreWrapper` identity search and realm conversion) is a host directory call. Its result is an input: the attribute values as a sequence (so "first" is its iteration order), null, or a failure. An identity that is not found is one of those failures.
- Resource bundles and locales: a prompt text is its bundle key (`callback.text`, `callback.code`, `callback.phoneNumberText`, ...). A missing bundle key, which would throw inside `process`, is not modelled.
- Exception descriptions are the text the failing call reports. A null dereference is `java.lang.NullPointerException`, without the message detail newer Java versions add.
- Shared-state values that are not strings (for which `asString()` throws) are not modelled: shared state holds strings only. A key put with a null value is modelled as removed, since it reads back the same.
- How the host fills in a confirmation callback's selected index is not modelled; the index returned is an input.
- Logging, `printStackTrace`, dependency injection, the `@Attribute` annotations and `RequiredValueValidator` are framework plumbing with no effect on the decision.
- A button flag in the collector's node attributes that is present but not a boolean (for which `asBoolean()` throws in `getOutcomes`) is not modelled: a flag is missing or a boolean.
- Concurrency between tree runs is not part of this model.
- The collector test class builds contexts but asserts nothing, so it contributes no property.

=== FILE: collector.dfy ===
/**
 The Twilio Verify collector decision node. It asks the user for the code that
 was sent (with optional resend and cancel buttons), routes a button press to
 "resend" or "cancel", and otherwise has Twilio check the entered code against
 the service SID and identifier the sender node left in shared state. The
 check call is an input: its reply is a parameter and the request the node
 makes is part of the result.
 */
module Collector {
  import opened Tree
  import Sender

  const SuccessOutcome := "true"
  const FalseOutcome := "false"
  const ResendOutcome := "resend"
  const CancelOutcome := "cancel"
  const ErrorOutcome := "error"

  /** The status Twilio gives a code that matches. */
  const Approved := "approved"

  datatype Config = Config(
    hideCode: bool,
    identifierSharedState: string,
    showResendButton: bool,
    resendButtonText: string,
    showCancelButton: bool,
    cancelButtonText: string)

  const Defaults := Config(true, "userIdentifier", false, "resend", false, "cancel")

  /** What the node asks Twilio to check: `code` against the service and identifier. */
  datatype CheckRequest = CheckRequest(serviceSID: Option<string>, code: string, to: Option<string>)

  /** Twilio's answer: the verification status (possibly null), or an exception. */
  datatype CheckReply = Checked(status: Option<string>) | CheckFailed(description: string)

  /** The entered code: from the masked field when the code is hidden, else from the plain one. */
  function CodeOf(cfg: Config, responses: seq<Response>): (r: Option<string>)
    ensures r.Some? && cfg.hideCode ==> exists j :: 0 <= j < |responses| && responses[j] == PasswordResponse(r)
    ensures r.Some? && !cfg.hideCode ==> exists j :: 0 <= j < |responses| && responses[j] == NameResponse(r)
    ensures cfg.hideCode && PasswordOf(responses).None? ==> r.None?
    ensures !cfg.hideCode && NameOf(responses).None? ==> r.None?
    ensures cfg.hideCode ==> forall j ::
      (0 <= j < |responses| && responses[j].PasswordResponse? && forall i :: 0 <= i < j ==> !responses[i].PasswordResponse?) ==>
        r == responses[j].password
    ensures !cfg.hideCode ==> forall j ::
      (0 <= j < |responses| && responses[j].NameResponse? && forall i :: 0 <= i < j ==> !responses[i].NameResponse?) ==>
        r == responses[j].name
  {
    if cfg.hideCode then Present(PasswordOf(responses)) else Present(NameOf(responses))
  }

  /** The outcome a button press selects, if any; resend and cancel are looked
      at before the code. */
  function ButtonChoice(cfg: Config, responses: seq<Response>): (r: Option<string>)
    ensures r.Some? ==> r.value in [ResendOutcome, CancelOutcome]
    ensures r.Some? ==> SelectionOf(responses).Some?
    ensures r == Some(ResendOutcome) ==> cfg.showResendButton
    ensures r == Some(CancelOutcome) ==> cfg.showCancelButton
  {
    var selected := SelectionOf(responses);
    if cfg.showResendButton && cfg.showCancelButton then
      if selected == Some(1) then Some(ResendOutcome)
      else if selected == Some(2) then Some(CancelOutcome)
      else None
    else if cfg.showResendButton then
      if selected == Some(1) then Some(ResendOutcome) else None
    else if cfg.showCancelButton then
      if selected == Some(1) then Some(CancelOutcome) else None
    else None
  }

  /** The labels of the choice field, "Next" first. */
  function ChoiceOptions(cfg: Config): (r: seq<string>)
    ensures |r| == 1 + (if cfg.showResendButton then 1 else 0) + (if cfg.showCancelButton then 1 else 0)
    ensures r[0] == "Next"
    ensures cfg.showResendButton ==> r[1] == cfg.resendButtonText
    ensures cfg.showCancelButton ==> r[|r| - 1] == cfg.cancelButtonText
  {
    ["Next"]
    + (if cfg.showResendButton then [cfg.resendButtonText] else [])
    + (if cfg.showCancelButton then [cfg.cancelButtonText] else [])
  }

  /** `collectCode`: the prompt for the code. */
  function Prompt(cfg: Config): (r: seq<Callback>)
    ensures 2 <= |r| <= 3
    ensures r[0] == TextOutput("callback.text")
    ensures r[1] == if cfg.hideCode then PasswordInput("callback.code", false) else NameInput("callback.code", None)
    ensures |r| == 3 <==> cfg.showResendButton || cfg.showCancelButton
    ensures |r| == 3 ==> r[2] == Confirmation(ChoiceOptions(cfg), 1)
  {
    [TextOutput("callback.text")]
    + [if cfg.hideCode then PasswordInput("callback.code", false) else NameInput("callback.code", None)]
    + (if cfg.showResendButton || cfg.showCancelButton then [Confirmation(ChoiceOptions(cfg), 1)] else [])
  }

  /** Whether building the prompt throws: the choice field's constructor rejects
      an empty option, so a shown button with an empty text cannot be offered. */
  predicate PromptRejected(cfg: Config) {
    (cfg.showResendButton && cfg.resendButtonText == "") || (cfg.showCancelButton && cfg.cancelButtonText == "")
  }

  /** `checkCode`: only the exact status "approved" passes. */
  function CheckCode(state: SharedState, request: CheckRequest, reply: CheckReply): (r: Step<CheckRequest>)
    ensures r.request == Some(request) && r.action.GoTo? && r.action.replacedState.None?
    ensures r.action.outcome == SuccessOutcome <==> reply == Checked(Some(Approved))
    ensures r.action.outcome == ErrorOutcome <==> reply.CheckFailed?
    ensures r.action.outcome == FalseOutcome <==> reply.Checked? && reply.status != Some(Approved)
    ensures r.state == if reply.CheckFailed? then state[ExceptionKey := reply.description] else state
  {
    match reply
    case Checked(status) =>
      Step(GoTo(if status == Some(Approved) then SuccessOutcome else FalseOutcome, None), state, Some(request))
    case CheckFailed(e) =>
      Step(GoTo(ErrorOutcome, None), state[ExceptionKey := e], Some(request))
  }

  /** `process`: the decision the node takes on one call. */
  function Decide(cfg: Config, state: SharedState, responses: seq<Response>, reply: CheckReply): (r: Step<CheckRequest>)
    ensures r.action.Send? ==> r.action.callbacks == Prompt(cfg) && r.request.None? && r.state == state
    ensures r.action.GoTo? ==> r.action.replacedState.None?
    ensures r.request.Some? <==> ButtonChoice(cfg, responses).None? && CodeOf(cfg, responses).Some? && CodeOf(cfg, responses).value != ""
    ensures r.action.Send? <==> r.request.None? && ButtonChoice(cfg, responses).None? && !PromptRejected(cfg)
    ensures r.request.None? && ButtonChoice(cfg, responses).None? && PromptRejected(cfg) ==>
      r == Step(GoTo(ErrorOutcome, None), state[ExceptionKey := IllegalArgumentText], None)
  {
    match ButtonChoice(cfg, responses)
    case Some(outcome) => Step(GoTo(outcome, None), state, None)
    case None =>
      var code := CodeOf(cfg, responses);
      if code.Some? && code.value != "" then
        CheckCode(state, CheckRequest(Get(state, Sender.ServiceSidKey), code.value, Get(state, cfg.identifierSharedState)), reply)
      else if PromptRejected(cfg) then
        Step(GoTo(ErrorOutcome, None), state[ExceptionKey := IllegalArgumentText], None)
      else
        Step(Send(Prompt(cfg)), state, None)
  }

  /** `collectCode` as the node runs it: the callback list is built up one add
      at a time; `None` when the choice field's constructor throws. */
  method CollectCode(cfg: Config) returns (callbacks: Option<seq<Callback>>)
    ensures callbacks == if PromptRejected(cfg) then None else Some(Prompt(cfg))
  {
    var list := [TextOutput("callback.text")];
    if cfg.hideCode {
      list := list + [PasswordInput("callback.code", false)];
    } else {
      list := list + [NameInput("callback.code", None)];
    }
    if cfg.showResendButton && cfg.showCancelButton {
      if cfg.resendButtonText == "" || cfg.cancelButtonText == "" {
        return None;
      }
      list := list + [Confirmation(["Next", cfg.resendButtonText, cfg.cancelButtonText], 1)];
      assert ChoiceOptions(cfg) == ["Next", cfg.resendButtonText, cfg.cancelButtonText];
    } else if cfg.showResendButton {
      if cfg.resendButtonText == "" {
        return None;
      }
      list := list + [Confirmation(["Next", cfg.resendButtonText], 1)];
      assert ChoiceOptions(cfg) == ["Next", cfg.resendButtonText];
    } else if cfg.showCancelButton {
      if cfg.cancelButtonText == "" {
        return None;
      }
      list := list + [Confirmation(["Next", cfg.cancelButtonText], 1)];
      assert ChoiceOptions(cfg) == ["Next", cfg.cancelButtonText];
    }
    assert list == Prompt(cfg);
    callbacks := Some(list);
  }

  /** `process` as the node runs it: only the error handler changes the tree
      context's shared state, in place. */
  method Process(ctx: TreeContext, cfg: Config, reply: CheckReply) returns (action: Action, request: Option<CheckRequest>)
    modifies ctx
    ensures var r := Decide(cfg, old(ctx.sharedState), ctx.responses, reply);
      action == r.action && ctx.sharedState == r.state && request == r.request
  {
    var callbackCode := CodeOf(cfg, ctx.responses);
    var selected := SelectionOf(ctx.responses);
    request := None;
    if cfg.showResendButton && cfg.showCancelButton {
      if selected.Some? {
        if selected.value == 1 {
          return GoTo(ResendOutcome, None), None;
        } else if selected.value == 2 {
          return GoTo(CancelOutcome, None), None;
        }
      }
    } else if cfg.showResendButton {
      if selected.Some? && selected.value == 1 {
        return GoTo(ResendOutcome, None), None;
      }
    } else if cfg.showCancelButton {
      if selected.Some? && selected.value == 1 {
        return GoTo(CancelOutcome, None), None;
      }
    }
    if callbackCode.Some? && callbackCode.value != "" {
      request := Some(CheckRequest(Get(ctx.sharedState, Sender.ServiceSidKey), callbackCode.value,
                                   Get(ctx.sharedState, cfg.identifierSharedState)));
      match reply {
        case Checked(status) =>
          action := GoTo(if status == Some(Approved) then SuccessOutcome else FalseOutcome, None);
        case CheckFailed(e) =>
          ctx.sharedState := ctx.sharedState[ExceptionKey := e];
          action := GoTo(ErrorOutcome, None);
      }
    } else {
      var callbacks := CollectCode(cfg);
      if callbacks.None? {
        ctx.sharedState := ctx.sharedState[ExceptionKey := IllegalArgumentText];
        action := GoTo(ErrorOutcome, None);
      } else {
        action := Send(callbacks.value);
      }
    }
  }

  /** The node attributes `getOutcomes` reads: null, or the two button flags,
      either of which may be missing. */
  datatype NodeAttributes = NullAttributes | Attributes(showResendButton: Option<bool>, showCancelButton: Option<bool>)

  /** The declared outcomes, or the exception `required()` throws for a missing flag. */
  datatype Declared = Outcomes(outcomes: seq<Outcome>) | MissingAttribute(name: string)

  /** The outcome ids declared for the given button flags. */
  function DeclaredIds(showResend: bool, showCancel: bool): (r: seq<string>)
    ensures 3 <= |r| <= 5
    ensures r[0] == SuccessOutcome && r[1] == FalseOutcome && r[|r| - 1] == ErrorOutcome
    ensures ResendOutcome in r <==> showResend
    ensures CancelOutcome in r <==> showCancel
    ensures |r| == 3 + (if showResend then 1 else 0) + (if showCancel then 1 else 0)
    ensures showResend ==> r[2] == ResendOutcome
    ensures showCancel ==> r[|r| - 2] == CancelOutcome
  {
    [SuccessOutcome, FalseOutcome]
    + (if showResend then [ResendOutcome] else [])
    + (if showCancel then [CancelOutcome] else [])
    + [ErrorOutcome]
  }

  /** Each outcome the node can declare, with the name it is displayed under. */
  const Catalogue: set<Outcome> := {
    Outcome(SuccessOutcome, "True"), Outcome(FalseOutcome, "False"), Outcome(ResendOutcome, "Resend"),
    Outcome(CancelOutcome, "Cancel"), Outcome(ErrorOutcome, "Error")}

  /** `OutcomeProvider.getOutcomes`: the list is built up one add at a time. */
  method GetOutcomes(attributes: NodeAttributes) returns (declared: Declared)
    ensures attributes.NullAttributes? ==> declared.Outcomes? && Ids(declared.outcomes) == DeclaredIds(false, false)
    ensures attributes.Attributes? && attributes.showResendButton.None? ==> declared == MissingAttribute("showResendButton")
    ensures attributes.Attributes? && attributes.showResendButton.Some? && attributes.showCancelButton.None? ==>
      declared == MissingAttribute("showCancelButton")
    ensures attributes.Attributes? && attributes.showResendButton.Some? && attributes.showCancelButton.Some? ==>
      declared.Outcomes? &&
      Ids(declared.outcomes) == DeclaredIds(attributes.showResendButton.value, attributes.showCancelButton.value)
    ensures declared.Outcomes? ==> forall i :: 0 <= i < |declared.outcomes| ==> declared.outcomes[i] in Catalogue
  {
    var results := [Outcome(SuccessOutcome, "True")];
    results := results + [Outcome(FalseOutcome, "False")];
    if attributes.Attributes? {
      if attributes.showResendButton.None? {
        return MissingAttribute("showResendButton");
      }
      if attributes.showResendButton.value {
        results := results + [Outcome(ResendOutcome, "Resend")];
      }
    }
    if attributes.Attributes? {
      if attributes.showCancelButton.None? {
        return MissingAttribute("showCancelButton");
      }
      if attributes.showCancelButton.value {
        results := results + [Outcome(CancelOutcome, "Cancel")];
      }
    }
    results := results + [Outcome(ErrorOutcome, "Error")];
    declared := Outcomes(results);
  }

  /** Every outcome the node goes to is one it declares for its own configuration. */
  lemma OutcomeDeclared(cfg: Config, state: SharedState, responses: seq<Response>, reply: CheckReply)
    ensures var r := Decide(cfg, state, responses, reply);
      r.action.GoTo? ==> r.action.outcome in DeclaredIds(cfg.showResendButton, cfg.showCancelButton)
  {
  }

  /** With both buttons, index 1 is "resend" and index 2 "cancel", whatever code
      was entered; any other selection leaves the decision to the code. */
  lemma BothButtonsRoute(cfg: Config, state: SharedState, responses: seq<Response>, reply: CheckReply, index: int)
    requires cfg.showResendButton && cfg.showCancelButton
    requires SelectionOf(responses) == Some(index)
    ensures index == 1 ==> Decide(cfg, state, responses, reply) == Step(GoTo(ResendOutcome, None), state, None)
    ensures index == 2 ==> Decide(cfg, state, responses, reply) == Step(GoTo(CancelOutcome, None), state, None)
    ensures index != 1 && index != 2 ==> ButtonChoice(cfg, responses).None?
  {
  }

  /** With one button, index 1 is that button; any other selection leaves the
      decision to the code. */
  lemma OneButtonRoutes(cfg: Config, state: SharedState, responses: seq<Response>, reply: CheckReply, index: int)
    requires cfg.showResendButton != cfg.showCancelButton
    requires SelectionOf(responses) == Some(index)
    ensures index == 1 ==>
      Decide(cfg, state, responses, reply)
      == Step(GoTo(if cfg.showResendButton then ResendOutcome else CancelOutcome, None), state, None)
    ensures index != 1 ==> ButtonChoice(cfg, responses).None?
  {
  }

  /** Without buttons no selection is looked at. */
  lemma NoButtonsNoRouting(cfg: Config, responses: seq<Response>)
    requires !cfg.showResendButton && !cfg.showCancelButton
    ensures ButtonChoice(cfg, responses).None?
  {
  }

  /** A missing, null or empty code brings the prompt back, or, when a shown
      button has an empty text, the error the prompt's construction throws;
      Twilio is not asked. A code of spaces is not empty and is checked. */
  lemma EmptyCodeReprompts(cfg: Config, state: SharedState, responses: seq<Response>, reply: CheckReply)
    requires ButtonChoice(cfg, responses).None?
    ensures CodeOf(cfg, responses) in {None, Some("")} ==>
      Decide(cfg, state, responses, reply)
      == if PromptRejected(cfg) then Step(GoTo(ErrorOutcome, None), state[ExceptionKey := IllegalArgumentText], None)
         else Step(Send(Prompt(cfg)), state, None)
    ensures CodeOf(cfg, responses) == Some(" ") ==> Decide(cfg, state, responses, reply).request.Some?
  {
  }

  /** An entered code is checked against the service SID and the identifier in
      shared state; "approved" gives "true", any other status "false", and a
      failure "error" with the exception recorded. */
  lemma CodeChecked(cfg: Config, state: SharedState, responses: seq<Response>, reply: CheckReply, code: string)
    requires ButtonChoice(cfg, responses).None?
    requires CodeOf(cfg, responses) == Some(code) && code != ""
    ensures var r := Decide(cfg, state, responses, reply);
      && r.request == Some(CheckRequest(Get(state, Sender.ServiceSidKey), code, Get(state, cfg.identifierSharedState)))
      && (reply.Checked? ==> r == Step(GoTo(if reply.status == Some(Approved) then SuccessOutcome else FalseOutcome, None), state, r.request))
      && (reply.CheckFailed? ==> r == Step(GoTo(ErrorOutcome, None), state[ExceptionKey := reply.description], r.request))
  {
  }

  /** When the code is hidden only the masked field is read, otherwise only the
      plain one: two response lists that agree on the selection and on the
      field that is read give the same result, whatever the other field holds. */
  lemma CodeFieldFollowsHideCode(cfg: Config, state: SharedState, a: seq<Response>, b: seq<Response>, reply: CheckReply)
    requires SelectionOf(a) == SelectionOf(b)
    requires cfg.hideCode ==> Present(PasswordOf(a)) == Present(PasswordOf(b))
    requires !cfg.hideCode ==> Present(NameOf(a)) == Present(NameOf(b))
    ensures Decide(cfg, state, a, reply) == Decide(cfg, state, b, reply)
  {
  }

  /** A code typed into the field that is not read is ignored: the prompt comes back. */
  lemma {:induction false} OtherFieldIgnored(cfg: Config, state: SharedState, reply: CheckReply, code: string)
    requires !cfg.showResendButton && !cfg.showCancelButton
    ensures cfg.hideCode ==>
      Decide(cfg, state, [NameResponse(Some(code))], reply).action == Send(Prompt(cfg))
    ensures !cfg.hideCode ==>
      Decide(cfg, state, [PasswordResponse(Some(code))], reply).action == Send(Prompt(cfg))
  {
    assert FindFirst([NameResponse(Some(code))], PasswordKind).None?;
    assert FindFirst([PasswordResponse(Some(code))], NameKind).None?;
  }

  /** The choice field offers "Next", then resend if shown, then cancel if shown,
      with index 1 preselected. */
  lemma PromptChoices(cfg: Config)
    requires cfg.showResendButton || cfg.showCancelButton
    ensures var c := Prompt(cfg)[2];
      && c.options[0] == "Next"
      && c.defaultOption == 1
      && |c.options| == 1 + (if cfg.showResendButton then 1 else 0) + (if cfg.showCancelButton then 1 else 0)
      && (cfg.showResendButton ==> c.options[1] == cfg.resendButtonText)
      && (cfg.showCancelButton ==> c.options[|c.options| - 1] == cfg.cancelButtonText)
  {
  }

  /** Pressing a button of the prompt leads to that button's outcome, and
      pressing "Next" leads to the code: choosing index i of the choice field
      routes to resend exactly when i is the resend button's index, and to
      cancel exactly when it is the cancel button's. */
  lemma {:induction false} PromptRoutesChoice(cfg: Config, responses: seq<Response>, i: int)
    requires cfg.showResendButton || cfg.showCancelButton
    requires 0 <= i < |Prompt(cfg)[2].options|
    requires SelectionOf(responses) == Some(i)
    ensures var options := Prompt(cfg)[2].options;
      && (ButtonChoice(cfg, responses) == Some(ResendOutcome) <==> cfg.showResendButton && i == 1)
      && (ButtonChoice(cfg, responses) == Some(CancelOutcome) <==> cfg.showCancelButton && i == |options| - 1 && i > 0)
      && (i == 0 ==> ButtonChoice(cfg, responses).None?)
  {
    var options := Prompt(cfg)[2].options;
    assert options == ChoiceOptions(cfg);
  }

  /** When no request is made, Twilio's reply plays no part in the decision. */
  lemma NoRequestNoReply(cfg: Config, state: SharedState, responses: seq<Response>, a: CheckReply, b: CheckReply)
    requires Decide(cfg, state, responses, a).request.None?
    ensures Decide(cfg, state, responses, a) == Decide(cfg, state, responses, b)
  {
  }
}

=== FILE: flow.dfy ===
/**
 How the nodes hand a verification on through shared state: the identifier
 node publishes the identifier, the sender dispatches to it and records the
 service SID, and the collector checks the code against both.
 */
module Flow {
  import opened Tree
  import Identifier
  import Sender
  import Collector
  import Lookup

  /** An identifier the identifier node found is the one the sender dispatches
      to, with no prompt, when both nodes use the same shared-state key. */
  lemma IdentifierFeedsSender(iCfg: Identifier.Config, sCfg: Sender.Config, state: SharedState, values: seq<string>,
                              responses: seq<Response>, reply: Sender.CreateReply)
    requires |values| > 0
    requires iCfg.identifierSharedState == sCfg.identifierSharedState
    ensures var s1 := NextState(Identifier.Decide(iCfg, state, Identifier.Values(Some(values))));
      Sender.Decide(sCfg, s1, responses, reply).request
      == Some(Sender.CreateRequest(sCfg.serviceSID, Some(values[0]), Sender.CurrentChannel(sCfg.channel)))
  {
    Identifier.FirstValueRecorded(iCfg, state, values);
  }

  /** An identifier the identifier node found is the number the lookup node looks up. */
  lemma IdentifierFeedsLookup(iCfg: Identifier.Config, lCfg: Lookup.Config, state: SharedState, values: seq<string>,
                              reply: Lookup.CarrierReply)
    requires |values| > 0 && values[0] != ""
    requires iCfg.identifierSharedState == lCfg.identifierSharedState
    ensures var s1 := NextState(Identifier.Decide(iCfg, state, Identifier.Values(Some(values))));
      Lookup.Decide(lCfg, s1, reply).request == Some(values[0])
  {
    Identifier.FirstValueRecorded(iCfg, state, values);
  }

  /** After a successful dispatch, a code entered in the collector is checked
      against the service SID the sender recorded and the identifier it
      dispatched to, when both nodes use the same identifier key (and that key
      is not the service SID's own). */
  lemma SenderFeedsCollector(sCfg: Sender.Config, cCfg: Collector.Config, state: SharedState, responses: seq<Response>,
                             codeResponses: seq<Response>, code: string, reply: Collector.CheckReply)
    requires sCfg.identifierSharedState == cCfg.identifierSharedState != Sender.ServiceSidKey
    requires Sender.Decide(sCfg, state, responses, Sender.Created).request.Some?
    requires Collector.ButtonChoice(cCfg, codeResponses).None?
    requires Collector.CodeOf(cCfg, codeResponses) == Some(code) && code != ""
    ensures var sent := Sender.Decide(sCfg, state, responses, Sender.Created);
      Collector.Decide(cCfg, NextState(sent), codeResponses, reply).request
      == Some(Collector.CheckRequest(Some(sCfg.serviceSID), code, sent.request.value.to))
  {
    Sender.DispatchRecordsState(sCfg, state, responses);
    var sent := Sender.Decide(sCfg, state, responses, Sender.Created);
    Collector.CodeChecked(cCfg, NextState(sent), codeResponses, reply, code);
  }

  /** A whole run: the directory gives the user's mobile number, the sender
      dispatches an SMS to it, the user enters the code and Twilio approves it. */
  lemma EndToEnd(sid: string)
    ensures var number := "+15551234567";
      var iCfg := Identifier.Config("telephoneNumber", "userIdentifier");
      var found := Identifier.Decide(iCfg, map[], Identifier.Values(Some([number])));
      var sCfg := Sender.Config("AC1", sid, Sender.SMS, false, "userIdentifier");
      var sent := Sender.Decide(sCfg, NextState(found), [], Sender.Created);
      var checked := Collector.Decide(Collector.Defaults, NextState(sent), [PasswordResponse(Some("123456"))],
                                      Collector.Checked(Some("approved")));
      && found.action.outcome == "True"
      && NextState(found) == map["userIdentifier" := number]
      && sent.request == Some(Sender.CreateRequest(sid, Some(number), "sms"))
      && sent.action.outcome == "true"
      && NextState(sent) == map["userIdentifier" := number, "serviceSID" := sid]
      && checked.request == Some(Collector.CheckRequest(Some(sid), "123456", Some(number)))
      && checked.action == GoTo("true", None)
  {
    var number := "+15551234567";
    var iCfg := Identifier.Config("telephoneNumber", "userIdentifier");
    var found := Identifier.Decide(iCfg, map[], Identifier.Values(Some([number])));
    var sCfg := Sender.Config("AC1", sid, Sender.SMS, false, "userIdentifier");
    var sent := Sender.Decide(sCfg, NextState(found), [], Sender.Created);
    assert NextState(sent) == map["userIdentifier" := number, "serviceSID" := sid];
    var responses := [PasswordResponse(Some("123456"))];
    assert FindFirst(responses, PasswordKind) == Some(0);
    assert FindFirst(responses, ConfirmationKind).None?;
  }
}

=== FILE: identifier.dfy ===
/**
 The Twilio identifier node. It looks up the current user (username and realm
 from shared state) in the identity store, takes the first value of the
 configured attribute and returns a copy of shared state with that value under
 the configured key. The directory call is an input: its reply is a parameter
 and the lookup the node makes is part of the result.
 */
module Identifier {
  import opened Tree

  const SuccessOutcome := "True"
  const NotFoundOutcome := "False"
  const ErrorOutcome := "Error"

  datatype Config = Config(identifierAttribute: string, identifierSharedState: string)

  const Defaults := Config("", "userIdentifier")

  /** The directory lookup: the attribute of the identity found for this user in this realm. */
  datatype DirectoryRequest = DirectoryRequest(username: Option<string>, realm: Option<string>, attribute: string)

  /** The directory's answer: the attribute's values in iteration order (null
      when the attribute is not set), or an exception (which includes an
      identity that was not found). */
  datatype DirectoryReply = Values(values: Option<seq<string>>) | DirectoryFailed(description: string)

  /** `process`: the decision the node takes on one call. */
  function Decide(cfg: Config, state: SharedState, reply: DirectoryReply): (r: Step<DirectoryRequest>)
    ensures r.request == Some(DirectoryRequest(Get(state, UsernameKey), Get(state, RealmKey), cfg.identifierAttribute))
    ensures r.action.GoTo? && r.action.outcome in [SuccessOutcome, NotFoundOutcome, ErrorOutcome]
    ensures r.action.replacedState.Some? <==> r.action.outcome == SuccessOutcome
    ensures r.action.outcome == ErrorOutcome <==> reply.DirectoryFailed?
    ensures r.state == if reply.DirectoryFailed? then state[ExceptionKey := reply.description] else state
  {
    var request := DirectoryRequest(Get(state, UsernameKey), Get(state, RealmKey), cfg.identifierAttribute);
    match reply
    case DirectoryFailed(e) => Step(GoTo(ErrorOutcome, None), state[ExceptionKey := e], Some(request))
    case Values(values) =>
      if values.None? || |values.value| == 0 then Step(GoTo(NotFoundOutcome, None), state, Some(request))
      else Step(GoTo(SuccessOutcome, Some(state[cfg.identifierSharedState := values.value[0]])), state, Some(request))
  }

  /** A null or empty attribute gives "False" and leaves shared state as it was. */
  lemma NoValuesIsFalse(cfg: Config, state: SharedState, values: Option<seq<string>>)
    requires values.None? || values == Some([])
    ensures var r := Decide(cfg, state, Values(values));
      r.action == GoTo(NotFoundOutcome, None) && r.state == state
  {
  }

  /** A value found gives "True" and a copy of shared state whose identifier key
      holds the first value; every other key is as before and the tree
      context's own shared state is not changed. */
  lemma FirstValueRecorded(cfg: Config, state: SharedState, values: seq<string>)
    requires |values| > 0
    ensures var r := Decide(cfg, state, Values(Some(values)));
      && r.action.outcome == SuccessOutcome
      && r.state == state
      && r.action.replacedState.Some?
      && Get(r.action.replacedState.value, cfg.identifierSharedState) == Some(values[0])
      && forall k :: k != cfg.identifierSharedState ==> Get(r.action.replacedState.value, k) == Get(state, k)
  {
  }

  /** The choice depends only on the first value: values that agree on it give the same result. */
  lemma FirstValueDecides(cfg: Config, state: SharedState, a: seq<string>, b: seq<string>)
    requires |a| > 0 && |b| > 0 && a[0] == b[0]
    ensures Decide(cfg, state, Values(Some(a))) == Decide(cfg, state, Values(Some(b)))
  {
  }

  /** A failing directory call ends on "Error" with the exception recorded. */
  lemma FailureRecordsException(cfg: Config, state: SharedState, e: string)
    ensures var r := Decide(cfg, state, DirectoryFailed(e));
      r.action == GoTo(ErrorOutcome, None) && r.state == state[ExceptionKey := e]
  {
  }

  /** `OutcomeProvider.getOutcomes`. */
  function Outcomes(): (r: seq<Outcome>)
    ensures Ids(r) == [SuccessOutcome, NotFoundOutcome, ErrorOutcome]
    ensures forall i :: 0 <= i < |r| ==> r[i].displayName == r[i].id
  {
    [Outcome(SuccessOutcome, SuccessOutcome), Outcome(NotFoundOutcome, NotFoundOutcome), Outcome(ErrorOutcome, ErrorOutcome)]
  }

  /** Every outcome the node goes to is a declared one. */
  lemma OutcomeDeclared(cfg: Config, state: SharedState, reply: DirectoryReply)
    ensures Decide(cfg, state, reply).action.outcome in Ids(Outcomes())
  {
  }
}

=== FILE: lookup.dfy ===
/**
 The Twilio lookup node. It reads the phone number from shared state and asks
 Twilio's carrier lookup for the line type: "True" for a mobile line, "False"
 for a missing number or any other line type, "Error" when the lookup or the
 reading of its result throws. The lookup call is an input: its reply is a
 parameter and the number the node looks up is part of the result.
 */
module Lookup {
  import opened Tree

  const SuccessOutcome := "True"
  const NotFoundOutcome := "False"
  const ErrorOutcome := "Error"

  /** The line type Twilio gives a mobile number. */
  const Mobile := "mobile"

  /** The node configuration; account SID and auth token only serve the Twilio
      client set-up and are left out. */
  datatype Config = Config(identifierSharedState: string)

  const Defaults := Config("userIdentifier")

  /** Twilio's answer: the carrier's "type" entry (null when the carrier or the
      entry is missing), or an exception. */
  datatype CarrierReply = Carrier(lineType: Option<string>) | LookupFailed(description: string)

  /** A number that counts as missing: null or the empty string. */
  predicate IsMissing(phone: Option<string>) {
    phone.None? || phone == Some("")
  }

  /** The test as the source writes it, `phoneNumber == null || phoneNumber == ""`:
      the second half compares references, so an empty string counts as missing
      only when it is the very object of the interned literal. */
  predicate IsMissingAsWritten(phone: Option<string>, sameObjectAsLiteral: bool) {
    phone.None? || (phone == Some("") && sameObjectAsLiteral)
  }

  /** What the node does with a number it does look up. */
  function Classify(state: SharedState, phone: string, reply: CarrierReply): (r: Step<string>)
    ensures r.request == Some(phone) && r.action.GoTo? && r.action.replacedState.None?
    ensures r.action.outcome == SuccessOutcome <==> reply == Carrier(Some(Mobile))
    ensures r.action.outcome == ErrorOutcome <==> reply == Carrier(None) || reply.LookupFailed?
    ensures r.action.outcome == NotFoundOutcome <==> reply.Carrier? && reply.lineType.Some? && reply.lineType.value != Mobile
    ensures r.state == match reply
                       case Carrier(None) => state[ExceptionKey := NullPointerText]
                       case LookupFailed(e) => state[ExceptionKey := e]
                       case _ => state
  {
    match reply
    case LookupFailed(e) => Step(GoTo(ErrorOutcome, None), state[ExceptionKey := e], Some(phone))
    case Carrier(None) =>
      // `type.equals("mobile")` on a null type throws
      Step(GoTo(ErrorOutcome, None), state[ExceptionKey := NullPointerText], Some(phone))
    case Carrier(Some(lineType)) =>
      Step(GoTo(if lineType == Mobile then SuccessOutcome else NotFoundOutcome, None), state, Some(phone))
  }

  /** `process`, with the missing-number test as intended: the empty string is missing. */
  function Decide(cfg: Config, state: SharedState, reply: CarrierReply): (r: Step<string>)
    ensures r.action.GoTo? && r.action.replacedState.None?
    ensures r.action.outcome in [SuccessOutcome, NotFoundOutcome, ErrorOutcome]
    ensures r.request.None? <==> IsMissing(Get(state, cfg.identifierSharedState))
    ensures r.request.Some? ==> r.request == Get(state, cfg.identifierSharedState)
  {
    var phone := Get(state, cfg.identifierSharedState);
    if IsMissing(phone) then Step(GoTo(NotFoundOutcome, None), state, None)
    else Classify(state, phone.value, reply)
  }

  /** `process` with the missing-number test as the source writes it. */
  function DecideAsWritten(cfg: Config, state: SharedState, sameObjectAsLiteral: bool, reply: CarrierReply): (r: Step<string>)
    ensures r.request.None? <==> IsMissingAsWritten(Get(state, cfg.identifierSharedState), sameObjectAsLiteral)
  {
    var phone := Get(state, cfg.identifierSharedState);
    if IsMissingAsWritten(phone, sameObjectAsLiteral) then Step(GoTo(NotFoundOutcome, None), state, None)
    else Classify(state, phone.value, reply)
  }

  /** An empty number read from shared state is a different object from the
      literal "", so as written it is sent to Twilio and a failed lookup ends on
      "Error"; as intended it is missing and ends on "False" without a lookup. */
  lemma EmptyNumberReachesLookup(cfg: Config, state: SharedState, e: string)
    requires Get(state, cfg.identifierSharedState) == Some("")
    ensures DecideAsWritten(cfg, state, false, LookupFailed(e)).request == Some("")
    ensures DecideAsWritten(cfg, state, false, LookupFailed(e)).action.outcome == ErrorOutcome
    ensures Decide(cfg, state, LookupFailed(e)) == Step(GoTo(NotFoundOutcome, None), state, None)
  {
  }

  /** The two tests agree on every number that is not the empty string. */
  lemma AsWrittenAgreesOnNonEmpty(cfg: Config, state: SharedState, sameObjectAsLiteral: bool, reply: CarrierReply)
    requires Get(state, cfg.identifierSharedState) != Some("")
    ensures DecideAsWritten(cfg, state, sameObjectAsLiteral, reply) == Decide(cfg, state, reply)
  {
  }

  /** A missing or empty number gives "False" without a lookup, whatever Twilio would say. */
  lemma MissingNumberIsFalse(cfg: Config, state: SharedState, reply: CarrierReply)
    requires IsMissing(Get(state, cfg.identifierSharedState))
    ensures Decide(cfg, state, reply) == Step(GoTo(NotFoundOutcome, None), state, None)
  {
  }

  /** For a number that is there, exactly the line type "mobile" gives "True",
      any other line type "False", and a null type or a failed lookup "Error"
      with the exception recorded. */
  lemma LineTypeClassified(cfg: Config, state: SharedState, reply: CarrierReply)
    requires !IsMissing(Get(state, cfg.identifierSharedState))
    ensures var r := Decide(cfg, state, reply);
      && r.request == Get(state, cfg.identifierSharedState)
      && (reply == Carrier(Some(Mobile)) ==> r.action.outcome == SuccessOutcome && r.state == state)
      && (reply.Carrier? && reply.lineType.Some? && reply.lineType.value != Mobile ==>
            r.action.outcome == NotFoundOutcome && r.state == state)
      && (reply == Carrier(None) ==> r.action.outcome == ErrorOutcome && r.state == state[ExceptionKey := NullPointerText])
      && (reply.LookupFailed? ==> r.action.outcome == ErrorOutcome && r.state == state[ExceptionKey := reply.description])
  {
  }

  /** The match on "mobile" is exact: other spellings are not mobile. */
  lemma MobileIsCaseSensitive(cfg: Config, state: SharedState)
    requires !IsMissing(Get(state, cfg.identifierSharedState))
    ensures Decide(cfg, state, Carrier(Some("Mobile"))).action.outcome == NotFoundOutcome
  {
  }

  /** `OutcomeProvider.getOutcomes`. */
  function Outcomes(): (r: seq<Outcome>)
    ensures Ids(r) == [SuccessOutcome, NotFoundOutcome, ErrorOutcome]
    ensures forall i :: 0 <= i < |r| ==> r[i].displayName == r[i].id
  {
    [Outcome(SuccessOutcome, SuccessOutcome), Outcome(NotFoundOutcome, NotFoundOutcome), Outcome(ErrorOutcome, ErrorOutcome)]
  }

  /** Every outcome the node goes to is a declared one. */
  lemma OutcomeDeclared(cfg: Config, state: SharedState, reply: CarrierReply)
    ensures Decide(cfg, state, reply).action.outcome in Ids(Outcomes())
  {
  }
}

=== FILE: sender.dfy ===
/**
 The Twilio Verify sender node. It reads the identifier (phone number or
 e-mail address) from shared state, or asks the user for it when configured
 to, asks Twilio to create a verification on the configured channel, and
 records the service SID and the identifier in shared state for the collector.
 The create-verification call is an input: its reply is a parameter and the
 request the node makes is part of the result.
 */
module Sender {
  import opened Tree

  /** Shared-state key of the Verify service SID, read back by the collector. */
  const ServiceSidKey := "serviceSID"

  const SuccessOutcome := "true"
  const ErrorOutcome := "error"

  /** The delivery channels (the node's `Module` enum). */
  datatype Channel = SMS | CALL | EMAIL | WHATSAPP

  /** The channel name Twilio is given (`currentChannel()`). */
  function CurrentChannel(c: Channel): string {
    match c
    case SMS => "sms"
    case CALL => "call"
    case EMAIL => "email"
    case WHATSAPP => "whatsapp"
  }

  /** Whether the identifier of this channel is a phone number. */
  predicate IsPhone(c: Channel) {
    CurrentChannel(c) == "sms" || CurrentChannel(c) == "call" || CurrentChannel(c) == "whatsapp"
  }

  lemma ChannelNames(c: Channel, d: Channel)
    ensures CurrentChannel(c) == CurrentChannel(d) ==> c == d
    ensures IsPhone(c) <==> c != EMAIL
  {
  }

  /** The node configuration; the auth token only serves the Twilio client set-up
      and is left out. */
  datatype Config = Config(
    accountSID: string,
    serviceSID: string,
    channel: Channel,
    requestIdentifier: bool,
    identifierSharedState: string)

  const Defaults := Config("", "", SMS, false, "userIdentifier")

  /** What the node asks Twilio for: a verification of `to` on `channel`. */
  datatype CreateRequest = CreateRequest(serviceSID: string, to: Option<string>, channel: string)

  /** Twilio's answer: created, or an exception with its description. */
  datatype CreateReply = Created | CreateFailed(description: string)

  predicate IsDigit(c: char) {
    '0' <= c <= '9'
  }

  /** `s.replaceAll("[\\D]", "")`: the digits of `s`, in order. */
  function Digits(s: string): (r: string)
    ensures |r| <= |s|
    ensures forall i :: 0 <= i < |r| ==> IsDigit(r[i])
    ensures (forall i :: 0 <= i < |s| ==> IsDigit(s[i])) ==> r == s
  {
    if s == [] then []
    else if IsDigit(s[0]) then [s[0]] + Digits(s[1..])
    else Digits(s[1..])
  }

  /** A single character: a digit is kept, anything else is dropped. */
  lemma DigitsOfChar(c: char)
    ensures Digits([c]) == if IsDigit(c) then [c] else []
  {
  }

  /** Every digit of the input is kept, as often as it occurs, and nothing else is. */
  lemma {:induction false} DigitsCount(s: string)
    ensures forall c :: multiset(Digits(s))[c] == if IsDigit(c) then multiset(s)[c] else 0
  {
    if s != [] {
      DigitsCount(s[1..]);
      assert s == [s[0]] + s[1..];
      assert multiset(s) == multiset{s[0]} + multiset(s[1..]);
    }
  }

  /** Removing the non-digits distributes over concatenation. */
  lemma {:induction false} DigitsAppend(s: string, t: string)
    ensures Digits(s + t) == Digits(s) + Digits(t)
  {
    if s == [] {
      assert s + t == t;
    } else {
      assert (s + t)[0] == s[0];
      assert (s + t)[1..] == s[1..] + t;
      DigitsAppend(s[1..], t);
    }
  }

  /** A phone identifier as the node forms it from what the user typed. */
  function Normalise(s: string): (r: string)
    ensures |r| >= 1 && r[0] == '+'
    ensures forall i :: 1 <= i < |r| ==> IsDigit(r[i])
    ensures r[1..] == Digits(s)
  {
    "+" + Digits(s)
  }

  lemma NormaliseIdempotent(s: string)
    ensures Normalise(Normalise(s)) == Normalise(s)
  {
    var n := Normalise(s);
    DigitsAppend("+", n[1..]);
    assert n == "+" + n[1..];
  }

  lemma DigitsOfAreaCode(a: string)
    requires a == "(555) "
    ensures Digits(a) == "555"
  {
    assert Digits("(") == [] by { assert "("[1..] == []; }
    assert Digits(") ") == [] by { assert ") "[1..] == " "; assert " "[1..] == []; }
    assert Digits("555") == "555";
    DigitsAppend("(", "555");
    assert "(" + "555" == "(555";
    DigitsAppend("(555", ") ");
    assert "(555" + ") " == "(555) ";
  }

  lemma DigitsOfLocalNumber(b: string)
    requires b == "123-4567"
    ensures Digits(b) == "1234567"
  {
    assert Digits("-4567") == "4567" by { assert "-4567"[1..] == "4567"; }
    DigitsAppend("123", "-4567");
    assert "123" + "-4567" == "123-4567";
  }

  /** A number typed with punctuation, `(555) 123-4567` (given as its two
      halves), becomes "+" and its digits. */
  lemma NormaliseExample(a: string, b: string)
    requires a == "(555) " && b == "123-4567"
    ensures Normalise(a + b) == "+5551234567"
  {
    DigitsOfAreaCode(a);
    DigitsOfLocalNumber(b);
    DigitsAppend(a, b);
  }

  /** Where the identifier for this call comes from. */
  datatype Resolution =
    | Resolved(identifier: Option<string>)  // from shared state or from the user (may be null)
    | AskIdentifier                          // prompt the user for it
    | NullName                               // the user's phone entry is null: `replaceAll` throws

  function Resolve(cfg: Config, state: SharedState, responses: seq<Response>): (r: Resolution)
    ensures Get(state, cfg.identifierSharedState).Some? || !cfg.requestIdentifier ==>
      r == Resolved(Get(state, cfg.identifierSharedState))
    ensures r == AskIdentifier <==>
      Get(state, cfg.identifierSharedState).None? && cfg.requestIdentifier && NameOf(responses).None?
    ensures r == NullName <==>
      Get(state, cfg.identifierSharedState).None? && cfg.requestIdentifier && IsPhone(cfg.channel) && NameOf(responses) == Some(None)
    ensures Get(state, cfg.identifierSharedState).None? && cfg.requestIdentifier && NameOf(responses).Some? && r.Resolved? ==>
      r.identifier == if IsPhone(cfg.channel) then Some(Normalise(NameOf(responses).value.value)) else NameOf(responses).value
  {
    var known := Get(state, cfg.identifierSharedState);
    if known.Some? || !cfg.requestIdentifier then Resolved(known)
    else match NameOf(responses)
      case None => AskIdentifier
      case Some(name) =>
        if IsPhone(cfg.channel) then
          (if name.Some? then Resolved(Some(Normalise(name.value))) else NullName)
        else Resolved(name)
  }

  /** The prompt for the identifier: an information text and one name field
      whose default name is the identifier's shared-state key. */
  function IdentifierPrompt(cfg: Config): (r: seq<Callback>)
    ensures |r| == 2 && r[0].TextOutput? && r[1].NameInput?
    ensures r[1].defaultName == Some(cfg.identifierSharedState)
    ensures r[1].prompt == if cfg.channel == EMAIL then "callback.email" else "callback.phoneNumber"
    ensures r[0].message == r[1].prompt + "Text"
  {
    var key := if IsPhone(cfg.channel) then "phoneNumber" else "email";
    [TextOutput("callback." + key + "Text"), NameInput("callback." + key, Some(cfg.identifierSharedState))]
  }

  /** The shared state after a successful dispatch. */
  function Recorded(cfg: Config, state: SharedState, identifier: Option<string>): (r: SharedState)
    ensures Get(r, cfg.identifierSharedState) == identifier
    ensures cfg.identifierSharedState != ServiceSidKey ==> Get(r, ServiceSidKey) == Some(cfg.serviceSID)
    ensures forall k :: k != ServiceSidKey && k != cfg.identifierSharedState ==> Get(r, k) == Get(state, k)
  {
    Put(state[ServiceSidKey := cfg.serviceSID], cfg.identifierSharedState, identifier)
  }

  /** `process`: the decision the node takes on one call. */
  function Decide(cfg: Config, state: SharedState, responses: seq<Response>, reply: CreateReply): (r: Step<CreateRequest>)
    ensures r.action.Send? <==>
      Get(state, cfg.identifierSharedState).None? && cfg.requestIdentifier && NameOf(responses).None? &&
      cfg.identifierSharedState != ""
    ensures r.action.Send? ==> r == Step(Send(IdentifierPrompt(cfg)), state, None)
    ensures r.action.GoTo? ==> r.action.outcome in [SuccessOutcome, ErrorOutcome]
    ensures r.action.GoTo? && r.action.outcome == SuccessOutcome <==> r.request.Some? && reply.Created?
    ensures r.request.Some? ==>
      r.request.value.serviceSID == cfg.serviceSID && r.request.value.channel == CurrentChannel(cfg.channel)
  {
    match Resolve(cfg, state, responses)
    case AskIdentifier =>
      // the name field's constructor rejects an empty default name
      if cfg.identifierSharedState == "" then Step(GoTo(ErrorOutcome, None), state[ExceptionKey := IllegalArgumentText], None)
      else Step(Send(IdentifierPrompt(cfg)), state, None)
    case NullName => Step(GoTo(ErrorOutcome, None), state[ExceptionKey := NullPointerText], None)
    case Resolved(id) =>
      var request := CreateRequest(cfg.serviceSID, id, CurrentChannel(cfg.channel));
      match reply
      case Created =>
        var recorded := Recorded(cfg, state, id);
        Step(GoTo(SuccessOutcome, Some(recorded)), recorded, Some(request))
      case CreateFailed(e) =>
        Step(GoTo(ErrorOutcome, None), state[ExceptionKey := e], Some(request))
  }

  /** `process` as the node runs it: the tree context's shared state is changed
      in place by the chained `put` on success and by the error handler. */
  method Process(ctx: TreeContext, cfg: Config, reply: CreateReply) returns (action: Action, request: Option<CreateRequest>)
    modifies ctx
    ensures var r := Decide(cfg, old(ctx.sharedState), ctx.responses, reply);
      action == r.action && ctx.sharedState == r.state && request == r.request
  {
    var userIdentifier := Get(ctx.sharedState, cfg.identifierSharedState);
    if userIdentifier.None? && cfg.requestIdentifier {
      var isPhone := IsPhone(cfg.channel);
      var name := NameOf(ctx.responses);
      if name.Some? {
        if isPhone {
          if name.value.None? {
            ctx.sharedState := ctx.sharedState[ExceptionKey := NullPointerText];
            return GoTo(ErrorOutcome, None), None;
          }
          userIdentifier := Some(Normalise(name.value.value));
        } else {
          userIdentifier := name.value;
        }
      } else {
        if cfg.identifierSharedState == "" {
          ctx.sharedState := ctx.sharedState[ExceptionKey := IllegalArgumentText];
          return GoTo(ErrorOutcome, None), None;
        }
        return Send(IdentifierPrompt(cfg)), None;
      }
    }
    request := Some(CreateRequest(cfg.serviceSID, userIdentifier, CurrentChannel(cfg.channel)));
    match reply {
      case Created =>
        ctx.sharedState := ctx.sharedState[ServiceSidKey := cfg.serviceSID];
        ctx.sharedState := Put(ctx.sharedState, cfg.identifierSharedState, userIdentifier);
        action := GoTo(SuccessOutcome, Some(ctx.sharedState));
      case CreateFailed(e) =>
        ctx.sharedState := ctx.sharedState[ExceptionKey := e];
        action := GoTo(ErrorOutcome, None);
    }
  }

  /** `OutcomeProvider.getOutcomes`. */
  method GetOutcomes() returns (results: seq<Outcome>)
    ensures Ids(results) == [SuccessOutcome, ErrorOutcome]
    ensures results[0].displayName == "True" && results[1].displayName == "Error"
  {
    results := [Outcome(SuccessOutcome, "True")];
    results := results + [Outcome(ErrorOutcome, "Error")];
  }

  /** An identifier already in shared state is used as it is: no prompt, and a
      verification of it on the configured channel is requested. */
  lemma KnownIdentifierDispatches(cfg: Config, state: SharedState, responses: seq<Response>, reply: CreateReply)
    requires cfg.identifierSharedState in state
    ensures Decide(cfg, state, responses, reply).request
         == Some(CreateRequest(cfg.serviceSID, Some(state[cfg.identifierSharedState]), CurrentChannel(cfg.channel)))
    ensures reply.Created? ==> Decide(cfg, state, responses, reply).action.outcome == SuccessOutcome
  {
  }

  /** With the identifier missing and nothing entered yet, the node asks for it
      and makes no request; with an empty identifier key the prompt cannot be
      built and the node goes to "error" instead. */
  lemma AsksForMissingIdentifier(cfg: Config, state: SharedState, responses: seq<Response>, reply: CreateReply)
    requires cfg.identifierSharedState !in state && cfg.requestIdentifier
    requires forall j :: 0 <= j < |responses| ==> !responses[j].NameResponse?
    ensures var r := Decide(cfg, state, responses, reply);
      r == if cfg.identifierSharedState == "" then Step(GoTo(ErrorOutcome, None), state[ExceptionKey := IllegalArgumentText], None)
           else Step(Send(IdentifierPrompt(cfg)), state, None)
  {
  }

  /** What the user entered becomes the identifier: for a phone channel "+"
      followed by its digits, for e-mail the entry unchanged. */
  lemma EnteredIdentifierUsed(cfg: Config, state: SharedState, responses: seq<Response>, reply: CreateReply, entry: string)
    requires cfg.identifierSharedState !in state && cfg.requestIdentifier
    requires NameOf(responses) == Some(Some(entry))
    ensures var r := Decide(cfg, state, responses, reply);
      r.request.Some? && r.request.value.to == Some(if cfg.channel == EMAIL then entry else Normalise(entry))
  {
  }

  /** A null phone entry throws in `replaceAll`; a null e-mail entry is sent on as it is. */
  lemma NullEntry(cfg: Config, state: SharedState, responses: seq<Response>, reply: CreateReply)
    requires cfg.identifierSharedState !in state && cfg.requestIdentifier
    requires NameOf(responses) == Some(None)
    ensures var r := Decide(cfg, state, responses, reply);
      if cfg.channel == EMAIL then r.request.Some? && r.request.value.to == None
      else r == Step(GoTo(ErrorOutcome, None), state[ExceptionKey := NullPointerText], None)
  {
  }

  /** Without `requestIdentifier` a missing identifier is sent to Twilio as null. */
  lemma MissingIdentifierSentAsNull(cfg: Config, state: SharedState, responses: seq<Response>, reply: CreateReply)
    requires cfg.identifierSharedState !in state && !cfg.requestIdentifier
    ensures Decide(cfg, state, responses, reply).request == Some(CreateRequest(cfg.serviceSID, None, CurrentChannel(cfg.channel)))
  {
  }

  /** A successful dispatch records the service SID and the identifier used,
      keeps every other key, and hands that state to the host. */
  lemma DispatchRecordsState(cfg: Config, state: SharedState, responses: seq<Response>)
    requires Decide(cfg, state, responses, Created).request.Some?
    ensures var r := Decide(cfg, state, responses, Created);
      && r.action == GoTo(SuccessOutcome, Some(r.state))
      && Get(r.state, cfg.identifierSharedState) == r.request.value.to
      && (cfg.identifierSharedState != ServiceSidKey ==> Get(r.state, ServiceSidKey) == Some(cfg.serviceSID))
      && forall k :: k != ServiceSidKey && k != cfg.identifierSharedState ==> Get(r.state, k) == Get(state, k)
  {
  }

  /** A failure of Twilio's call ends on "error" with the exception recorded and nothing else changed. */
  lemma FailureRecordsException(cfg: Config, state: SharedState, responses: seq<Response>, e: string)
    requires Decide(cfg, state, responses, CreateFailed(e)).request.Some?
    ensures Decide(cfg, state, responses, CreateFailed(e)).action == GoTo(ErrorOutcome, None)
    ensures Decide(cfg, state, responses, CreateFailed(e)).state == state[ExceptionKey := e]
  {
  }

  /** When no request is made, Twilio's reply plays no part in the decision. */
  lemma NoRequestNoReply(cfg: Config, state: SharedState, responses: seq<Response>, a: CreateReply, b: CreateReply)
    requires Decide(cfg, state, responses, a).request.None?
    ensures Decide(cfg, state, responses, a) == Decide(cfg, state, responses, b)
  {
  }
}

=== FILE: tree.dfy ===
/**
 The pieces of the authentication-tree host that the four Twilio Verify nodes
 touch: the string-keyed shared state, the callbacks a node sends to ask the
 user for input, the callbacks that come back filled in, the action a node
 returns, and the tree context whose shared state a node may change in place.
 */
module Tree {

  datatype Option<+T> = None | Some(value: T)

  /** The shared state of a tree run. A key whose JSON value is null reads the
      same as a missing key, so a missing key stands for both. */
  type SharedState = map<string, string>

  /** Key under which every node records the description of a caught exception. */
  const ExceptionKey := "Exception"

  /** Keys the host itself keeps in shared state (its SharedStateConstants). */
  const UsernameKey := "username"
  const RealmKey := "realm"

  /** What `toString()` gives for a dereferenced null; the message detail is not modelled. */
  const NullPointerText := "java.lang.NullPointerException"

  /** What `toString()` gives for the exception a callback constructor throws
      on an empty option, prompt or default name (it carries no message). */
  const IllegalArgumentText := "java.lang.IllegalArgumentException"

  /** `sharedState.get(key).asString()`: the string under `key`, or null. */
  function Get(state: SharedState, key: string): (r: Option<string>)
    ensures r.Some? <==> key in state
    ensures r.Some? ==> r.value == state[key]
  {
    if key in state then Some(state[key]) else None
  }

  /** `sharedState.put(key, value)`; putting null makes the key read as null. */
  function Put(state: SharedState, key: string, value: Option<string>): (r: SharedState)
    ensures Get(r, key) == value
    ensures forall k :: k != key ==> Get(r, k) == Get(state, k)
  {
    match value
    case Some(v) => state[key := v]
    case None => state - {key}
  }

  /** A callback a node sends to the user (what it asks for). Every text and
      confirmation callback in this repository has the INFORMATION type. */
  datatype Callback =
    | TextOutput(message: string)
    | NameInput(prompt: string, defaultName: Option<string>)
    | PasswordInput(prompt: string, echoOn: bool)
    | Confirmation(options: seq<string>, defaultOption: int)

  /** A callback as it comes back from the user, holding what was entered. */
  datatype Response =
    | TextOutputResponse
    | NameResponse(name: Option<string>)
    | PasswordResponse(password: Option<string>)
    | ConfirmationResponse(selectedIndex: int)

  datatype Kind = NameKind | PasswordKind | ConfirmationKind

  predicate IsKind(r: Response, k: Kind) {
    match k
    case NameKind => r.NameResponse?
    case PasswordKind => r.PasswordResponse?
    case ConfirmationKind => r.ConfirmationResponse?
  }

  /** `context.getCallback(C.class)` finds the first returned callback of class C. */
  function FindFirst(responses: seq<Response>, k: Kind): (r: Option<nat>)
    ensures r.Some? ==> r.value < |responses| && IsKind(responses[r.value], k)
    ensures r.Some? ==> forall j :: 0 <= j < r.value ==> !IsKind(responses[j], k)
    ensures r.None? ==> forall j :: 0 <= j < |responses| ==> !IsKind(responses[j], k)
  {
    if |responses| == 0 then None
    else if IsKind(responses[0], k) then Some(0)
    else match FindFirst(responses[1..], k)
      case None => None
      case Some(i) => Some(i + 1)
  }

  /** The name of the first NameCallback, if there is one (the name itself may be null). */
  function NameOf(responses: seq<Response>): (r: Option<Option<string>>)
    ensures r.Some? <==> exists j :: 0 <= j < |responses| && responses[j].NameResponse?
    ensures r.Some? ==> exists j :: 0 <= j < |responses| && responses[j] == NameResponse(r.value) &&
                                  (forall i :: 0 <= i < j ==> !responses[i].NameResponse?)
  {
    match FindFirst(responses, NameKind)
    case None => None
    case Some(i) => Some(responses[i].name)
  }

  /** The password of the first PasswordCallback, if there is one. */
  function PasswordOf(responses: seq<Response>): (r: Option<Option<string>>)
    ensures r.Some? <==> exists j :: 0 <= j < |responses| && responses[j].PasswordResponse?
    ensures r.Some? ==> exists j :: 0 <= j < |responses| && responses[j] == PasswordResponse(r.value) &&
                                  (forall i :: 0 <= i < j ==> !responses[i].PasswordResponse?)
  {
    match FindFirst(responses, PasswordKind)
    case None => None
    case Some(i) => Some(responses[i].password)
  }

  /** The selected index of the first ConfirmationCallback, if there is one. */
  function SelectionOf(responses: seq<Response>): (r: Option<int>)
    ensures r.Some? <==> exists j :: 0 <= j < |responses| && responses[j].ConfirmationResponse?
    ensures r.Some? ==> exists j :: 0 <= j < |responses| && responses[j] == ConfirmationResponse(r.value) &&
                                  (forall i :: 0 <= i < j ==> !responses[i].ConfirmationResponse?)
  {
    match FindFirst(responses, ConfirmationKind)
    case None => None
    case Some(i) => Some(responses[i].selectedIndex)
  }

  /** `Optional.map(getter)`: a present callback whose value is null gives an empty Optional. */
  function Present(o: Option<Option<string>>): Option<string> {
    match o
    case Some(Some(v)) => Some(v)
    case _ => None
  }

  /** What `process` returns: callbacks to send, or an outcome to go to,
      optionally replacing the shared state. */
  datatype Action =
    | Send(callbacks: seq<Callback>)
    | GoTo(outcome: string, replacedState: Option<SharedState>)

  /** A declared outcome of a node: its id and its display name. */
  datatype Outcome = Outcome(id: string, displayName: string)

  function Ids(outcomes: seq<Outcome>): (r: seq<string>)
    ensures |r| == |outcomes|
    ensures forall i :: 0 <= i < |outcomes| ==> r[i] == outcomes[i].id
  {
    if outcomes == [] then [] else [outcomes[0].id] + Ids(outcomes[1..])
  }

  /** The result of one `process` call: the action, the tree context's shared
      state afterwards, and the request made to the external service, if any. */
  datatype Step<+R> = Step(action: Action, state: SharedState, request: Option<R>)

  /** The shared state the host carries on to the next node: the replacement
      the action names, else the tree context's shared state. */
  function NextState<R>(step: Step<R>): SharedState {
    if step.action.GoTo? && step.action.replacedState.Some? then step.action.replacedState.value else step.state
  }

  /** The tree context handed to `process`: its shared state can be changed in
      place; the callbacks returned by the user are fixed for the call. */
  class TreeContext {
    var sharedState: SharedState
    const responses: seq<Response>

    constructor (state: SharedState, responses: seq<Response>)
      ensures sharedState == state && this.responses == responses
    {
      sharedState := state;
      this.responses := responses;
    }
  }
}
